=== FILE: README.md ===
# Image converter core, modelled in Dafny

`converter.py` turns every supported image in an input directory into a
480x800 JPEG. This project models the exact integer and sequence logic
around the image libraries:

- the format registry: which extensions are accepted, given whether HEIF
  and RAW decoding are available;
- the per-file pipeline of `process_image`:
  - the decoder choice;
  - colour-mode normalisation;
  - the crop-mode and fit-mode placement geometry;
  - the JPEG save settings;
- the batch loop of `process_directory`:
  - extension filtering;
  - output naming;
  - the skip-before-decode check;
  - the processed/skipped/failed counters and the per-file log.

Library behaviour is abstract. Each file has a `FileOracle` that says what
rawpy and PIL's opener decode, which size `Image.thumbnail` settles on, and
whether saving succeeds. The oracle is assumed to keep only the size contract
of `thumbnail` (`ThumbnailContract`). A picture is a `Picture` term that
records the PIL calls that built it. `ModeOf`, `SizeOf` and `Origin` read
its mode, its size and the decoded file it shows.

Modules, leaf first:

- `Text`: ASCII lower-casing and `rfind`.
- `Paths`: `os.path.splitext`, `os.path.join` and the `<root>.jpg` output name.
- `Formats`: the supported list and the decoder choice.
- `Geometry`: crop rectangle, fit offset and the thumbnail contract.
- `Settings`: the constants.
- `Pictures`: the picture terms.
- `Colour`: mode normalisation.
- `Placement`: crop mode and fit mode.
- `Convert`: `process_image`.
- `Ledger`: the counters, the per-file log and the set of existing outputs, over any verdict function.
- `Batch`: `process_directory`.

Python's `//` floors, while Dafny's `/` is Euclidean. The only divisor here
is the positive constant 2, and for a positive divisor the two agree, negative
dividends included. `Geometry` therefore uses `/` directly.

Behaviour of `converter.py` worth knowing, all of which the model keeps:

- An "LA" picture is pasted onto the black background without a mask. Only
  an "RGBA" layer lends its alpha band as the mask (converter.py:132), so an
  "LA" picture's transparency is dropped rather than blended.
- Crop mode can also enlarge a picture that is larger than the target on both
  axes, although the comment at converter.py:150 speaks only of smaller
  pictures. A very wide or very tall source is first brought inside twice the
  target, which can leave one axis short of the target, and the crop is then
  resized (`CropWideSourceIsResized`).
- The crop flag is a plain boolean: there is no automatic choice between the
  two placements. The per-file log carries `[i/total]` and nothing else about
  progress.

## Model

| member | source | states |
|---|---|---|
| `Formats.SupportedFormats` | converter.py:51-63 | The list has the 8 base extensions first, then the 3 HEIF ones exactly when HEIF is available, then the 8 RAW ones exactly when RAW is available. Its length is 8, 11, 16 or 19 accordingly, and an extension is in it iff it belongs to one of the enabled groups. |
| `Formats.SupportedFormatsWellFormed` | converter.py:53-61 | Every supported entry is a lower-case extension (a dot followed by no dot or separator). A lower-cased file extension can therefore match each one. |
| `Formats.RawGroupDisjoint` | converter.py:53-61 | No RAW extension is also a base or HEIF extension. |
| `Formats.IsSupported` | converter.py:207-208 | An entry is accepted when its lower-cased `splitext` extension is in the supported list. `SelectedFileHandling` and `DecoderChoice` characterise it. |
| `Formats.UpperCaseAccepted` | converter.py:207-208 | The filter ignores letter case: "IMG.JPG" is accepted even with no optional codec. |
| `Formats.ChooseDecoder` | converter.py:116-124 | rawpy is used iff RAW decoding is available and the lower-cased extension is in the RAW group. `DecoderChoice` characterises it against the registry. |
| `Formats.DecoderChoice` | converter.py:116-124 | The RAW decoder is chosen only for supported files. Among supported files it is chosen exactly for the RAW group, and base/HEIF files go to the generic opener. The choice depends only on the lower-cased extension. |
| `Text.Lower` | converter.py:117 | `str.lower()` on ASCII: the length is kept, every upper-case letter becomes its lower-case partner, and every other character is kept in place. `LowerFixedPoints` characterises it further. |
| `Text.LowerFixedPoints` | converter.py:117 | Lower-casing is idempotent, and it leaves a string unchanged iff the string has no upper-case letter. |
| `Paths.SplitExt` | converter.py:207 | Root followed by extension gives back the path. The extension is empty or a dot with no further dot or separator. When there is an extension, the last component of the root has a non-dot character. |
| `Paths.SplitExtRoundTrip` | converter.py:231-232 | Splitting `root + ext` gives back `root` and `ext` when the root's last component has a non-dot character and `ext` is a proper extension. |
| `Paths.OutputName` | converter.py:231-232 | The output name `f"{root}.jpg"`. `OutputNameOf` and `OutputNameSplit` characterise it: a root plus a proper extension becomes that root plus ".jpg", and the result splits into the input's root and ".jpg". |
| `Paths.OutputNameOf` | converter.py:231-232 | A name made of a root whose last component has a non-dot character and a proper extension gets the output name root + ".jpg". |
| `Paths.OutputNameSplit` | converter.py:231-233 | The output name of a file with an extension splits into that file's root and exactly ".jpg". |
| `Paths.Join` | converter.py:228 | `os.path.join` of a directory and one entry. `JoinShape` and `JoinKeepsExt` characterise it. |
| `Paths.JoinShape` | converter.py:228 | The entry always ends the joined path. An entry that does not start with a separator keeps the directory in front, with a separator between them when the directory is non-empty. |
| `Paths.JoinKeepsExt` | converter.py:228 | Joining the input directory to a separator-free entry leaves its extension unchanged. So `process_image` sees the extension that the filter saw. |
| `Geometry.ThumbnailContract` | converter.py:140-157 | What the model assumes of `Image.thumbnail`: the new size is positive, fits the box, is no larger than the source, and equals the source when the source already fits. `FitNeverUpscales`, `CropResizesOnlyShortThumbnails` and the worked examples use it. |
| `Placement.ThumbnailBox` | converter.py:140-157 | The box is twice the target on each axis in crop mode and the target itself in fit mode. |
| `Geometry.CropSpan` | converter.py:143-146 | On one axis, the kept interval satisfies `0 <= lo <= hi <= len` and has length `min(len, target)`. It is centred: the cut after it equals the cut before it, or exceeds it by one. |
| `Geometry.CropRect` | converter.py:143-148 | The crop box lies inside the picture and is no larger than the target. An axis at least as long as the target is cut to exactly the target, starting at half the excess rounded down. A shorter axis is kept whole. The box equals the target iff the picture covers the target. |
| `Geometry.FitOffset` | converter.py:163-166 | A picture that fits the canvas gets a non-negative offset and stays inside the canvas. The margins on either side differ by at most one. |
| `Colour.Normalize` | converter.py:127-135 | The result is RGB, has the source's size and shows the source. "RGBA"/"LA"/"P" are pasted at (0,0) on a black canvas of the same size, "P" after expansion to "RGBA", with the alpha mask exactly when the layer is "RGBA" (so not for "LA"). Other non-RGB modes are converted. RGB passes through unchanged. |
| `Colour.NormalizeIdempotent` | converter.py:126-135 | Normalising a normalised picture changes nothing. The converter normalises once; this is a corollary of `Normalize`'s contract, recording that the RGB branch is its fixed point. |
| `Placement.PlaceCrop` | converter.py:137-154 | The result is exactly 480x800, keeps the mode and shows the source. The kept picture is the thumbnail cut at `CropRect(thumb, Target)`, the centred box. A resize happens iff the thumbnail is shorter than the target on some axis. The resize then only enlarges. |
| `Placement.PlaceFit` | converter.py:155-167 | The result is a 480x800 black RGB canvas with the thumbnail pasted unmasked. The pasted box lies inside the canvas whenever the thumbnail fits the target. |
| `Convert.Decode` | converter.py:119-124 | Decoding fails iff the chosen decoder fails. A RAW-decoded picture is always RGB. |
| `Convert.ProcessImage` | converter.py:112-176 | True is returned iff decoding and saving both succeed, and a decode failure is reported as such. Every written JPEG is RGB, exactly 480x800 and shows the decoded file. It is saved with quality 95, optimize on and progressive off. |
| `Convert.FitNeverUpscales` | converter.py:155-167 | In fit mode the pasted layer is the normalised source after `thumbnail`, no larger than the source, and inside the canvas. |
| `Convert.CropResizesOnlyShortThumbnails` | converter.py:137-154 | In crop mode a resize happens iff the thumbnail is short of the target on some axis, and it only enlarges. A source that covers the target and fits twice the target is only cropped. |
| `Convert.FitCentred` | converter.py:155-167 | A written fit-mode picture is the thumbnail pasted centred on the canvas: on each axis the margins on either side differ by at most one pixel. |
| `Convert.CropCentred` | converter.py:140-154 | A written crop-mode picture is the normalised source's thumbnail cut at a box inside the thumbnail. On each axis the cuts on either side of the box differ by at most one pixel. |
| `Convert.FitExample` | converter.py:157-167 | A 1200x1200 source thumbnailed to 480x480 is pasted at (0, 160). |
| `Convert.CropExample` | converter.py:140-154 | A 480x1600 source is left alone by `thumbnail` and cropped to rows 400 to 1200, with no resize. |
| `Convert.CropWideSourceIsResized` | converter.py:140-152 | A 10000x1000 source reaches 960x96, is cropped to 480x96 at column 240, and is then resized to 480x800. |
| `Batch.Select` | converter.py:203-209 | A listing entry is selected iff its lower-cased extension is supported. |
| `Batch.SelectConcat` | converter.py:206-209 | Selecting from a concatenation is concatenating the selections, so listing order is kept. |
| `Batch.SkipsFile` | converter.py:236 | A file is skipped iff its output name is among the existing outputs and overwrite is off. `Judge`, `StepAccounts` and `OverwriteNeverSkips` characterise it. |
| `Batch.Judge` | converter.py:236-247 | A file is skipped iff its output name exists and overwrite is off. It is processed iff it is not skipped and `process_image` succeeds. Otherwise it failed. |
| `Batch.StepAccounts` | converter.py:227-247 | Each file moves exactly one counter by one. `skipped` moves iff the output exists and overwrite is off. `processed` moves iff the file is not skipped and `process_image` succeeds. Only a processed file adds its output name. One log line is appended, carrying the file's position, the total, the file and its verdict. |
| `Batch.Step` | converter.py:227-247 | One loop iteration. `StepAccounts` characterises it. |
| `Batch.Run` | converter.py:221-247 | The loop over the selected files, as `Ledger.Fold` with the verdict function `Judge` and the renaming `OutputName`. `RunStep` relates each iteration to `Step`. The `Ledger.Fold*` lemmas, `RunVerdicts`, `KeepSkips` and `OverwriteVerdicts`/`OverwriteCounts` characterise it. |
| `Ledger.Fold` | converter.py:221-247 | The counting loop over any verdict function, from zero counters. `FoldLog`, `FoldTotal`, `FoldCount`, `FoldNeverSkips`, `FoldOutputsExist`, `FoldExisting`, `FoldJudgedOnEarlierOutputs` and `FoldIndependentLog`/`FoldIndependentCount` characterise it. |
| `Ledger.Record` | converter.py:236-247 | Booking a file appends one log line and moves the counter of its verdict by one, so the total grows by one. Only a processed file's output name is added to the existing outputs. |
| `Ledger.FoldLog` | converter.py:227-247 | After k files there are k log lines. They name the files in order, numbered 1..k of the total. |
| `Ledger.FoldTotal` | converter.py:221-247 | After k files the three counters add up to k. |
| `Ledger.FoldCount` | converter.py:221-247 | After k files the counter of each verdict equals the number of log lines with that verdict. |
| `Ledger.FoldAccounts` | converter.py:221-247 | After k files processed, skipped and failed are exactly the numbers of "Processed", "Skipped" and "Error" log lines. |
| `Ledger.FoldNeverSkips` | converter.py:236-239 | When no file's verdict can be "skipped", `skipped` stays 0. |
| `Ledger.FoldOutputsExist` | converter.py:236-247 | Output names that existed at the start remain, and every processed file's output name exists afterwards. |
| `Ledger.Outputs` | converter.py:242-243 | The output names written by the processed lines among the first j of a log. `OutputsMembers` characterises it. |
| `Ledger.OutputsMembers` | converter.py:242-243 | A name is among the outputs of the first j lines iff one of those lines was processed and renames to it. |
| `Ledger.OutputsExtend` | converter.py:227-247 | Appending log lines does not change the outputs of the first j lines. |
| `Ledger.RecordOutputs` | converter.py:236-247 | Booking one file keeps the existing output names equal to those at the start plus those of the processed lines. |
| `Ledger.FoldExisting` | converter.py:221-247 | After k files the existing output names are exactly those present at the start plus the output names of the processed files: nothing else appears. |
| `Ledger.JudgedSnoc` | converter.py:227-247 | A log whose lines were each judged against the outputs written before them keeps that property when a line so judged is appended. |
| `Ledger.FoldJudgedOnEarlierOutputs` | converter.py:227-247 | Each file's verdict is the verdict function applied to the output names present at the start plus those of the files processed before it. |
| `Ledger.FoldEarlierOutputs` | converter.py:227-243 | A name is among the outputs written before file j iff some earlier file was processed and renames to it. |
| `Ledger.FoldSameOutput` | converter.py:227-247 | Of two files with the same output name, starting from no outputs, a processed first file leaves its output present when the second is judged. Exactly that output name remains, and the counters are one processed plus the second file's verdict. |
| `Batch.RunVerdicts` | converter.py:227-247 | File j is logged "Skipped" iff overwrite is off and its output name is present at the start or was written by an earlier file. Otherwise it is "Processed" iff `process_image` succeeds on it, and "Error" if not. |
| `Batch.KeepSkips` | converter.py:236-239 | With overwrite off, file j is skipped iff its output name existed at the start or equals the output name of an earlier processed file. |
| `Batch.OverwriteNeverSkips` | converter.py:236-239 | With overwrite on, `skipped` stays 0. |
| `Ledger.FoldIndependentLog` | converter.py:227-247 | When each file's verdict depends on the file alone, the k-th log line carries that file's verdict. |
| `Ledger.FoldIndependentCount` | converter.py:221-247 | When each file's verdict depends on the file alone, each counter is the number of files with that verdict. |
| `Batch.OverwriteJudgesAlone` | converter.py:236-247 | With overwrite on, a file's verdict is the outcome of `process_image` on that file alone, whatever outputs exist. |
| `Batch.OverwriteVerdicts` | converter.py:236-247 | With overwrite on, file j is logged "Processed" iff `process_image` succeeds on it, and "Error" otherwise. |
| `Batch.OverwriteCounts` | converter.py:221-247 | With overwrite on, `processed` is the number of files `process_image` succeeds on, `failed` is the number it fails on, and together they are all the files. |
| `Batch.SkipDoesNoWork` | converter.py:235-239 | A skipped file's step is the same whatever the libraries would do with it, because no decoding happens, and it is logged as skipped. |
| `Batch.SelectedFileHandling` | converter.py:206-233 | For a selected entry, the path given to `process_image` uses the RAW decoder iff the entry's extension is in the RAW group. Its output name is its root plus ".jpg". |
| `Batch.OutputCollision` | converter.py:230-247 | Two entries with the same output name both succeed. Without overwrite the second is counted as skipped, giving (1,1,0). With overwrite both are processed, giving (2,0,0), and one output file remains. |
| `Paths.SharedOutputName` | converter.py:231-232 | "a.png" and "a.gif" both map to "a.jpg". |
| `Batch.ConvertDirectory` | converter.py:179-213 | The run stops with the input-missing outcome iff the input directory is absent. It stops with the no-images outcome iff the directory exists and no entry is supported. |
| `Batch.CountersConserved` | converter.py:221-247 | processed + skipped + failed equals the number of selected files. |
| `Batch.ProcessDirectory` | converter.py:179-247 | The source's loop structure computes exactly the outcome `ConvertDirectory` defines. |
| `Batch.SelectFiles` | converter.py:203-209 | The filtering loop computes `Select`. |
| `Batch.ConvertFiles` | converter.py:221-247 | The counting loop computes the fold `Run` over the selected files. |
| `Batch.ConvertOne` | converter.py:227-247 | One loop iteration, with its early exit on skip, computes `Step`: the skip check before any decoding, then `process_image` and the matching counter. |

## Left out

- Pixel work is left out: decoding by PIL, rawpy and pillow-heif, the RAW
  post-processing recipe, LANCZOS resampling, alpha blending and JPEG
  encoding. These are foreign library calls with floating-point numerics. A
  picture carries only its mode, its size and its provenance.
- `Image.thumbnail`'s exact rounding of the aspect ratio is left out. Only its
  size contract (`ThumbnailContract`) is modelled, as an assumption on the
  oracle.
- The import-time probing of pillow-heif and rawpy (lines 25-48) is left out.
  Its outcome is the `Capabilities` parameter.
- Filesystem effects are replaced by parameters:
  - `os.listdir` is the `listing` sequence;
  - `os.path.exists` on the input directory is `inputExists`;
  - existence of output files is the `existing` set, updated by each
    successful save;
  - `check_directories`'s messages are left out, because they are output only.
- Failures that abort the whole run are not modelled. `os.makedirs` on the
  output directory (converter.py:105) raises when that path is a regular file
  or cannot be written. `os.listdir` on the input directory (converter.py:203)
  raises when the input path is a regular file, which the `os.path.exists`
  check at converter.py:96 lets through. Neither is caught inside
  `process_directory`: the run ends before any file is handled, and only the
  top-level handler at converter.py:356-358 reports it. `ConvertDirectory`
  has no outcome for this; its `inputExists` means a readable directory.
- Library failures are modelled only at two points. A save that fails is
  assumed to leave no file, and any other exception inside `process_image`
  is taken to come from decoding or saving.
- `main`, argument parsing, `show_settings`, every `print`/`input`, the
  summary block and `KeyboardInterrupt` handling are left out. They are
  presentation only.
- `Ledger.Record`: existing outputs are compared by exact name, as on a
  case-sensitive file system. On a case-insensitive one (the default on macOS,
  where the hard-coded directories of converter.py:11-12 live, and on Windows)
  writing "A.jpg" makes `os.path.exists` true for "a.jpg" too. So for the
  entries "A.png" and "a.gif" without overwrite, the program counts (1,1,0)
  where the model counts (2,0,0). Folding names by case depends on the file
  system, which the model leaves out.
- Paths follow POSIX `posixpath` rules only. Windows `ntpath` separators are
  not modelled.
- `Text.Lower` lower-cases ASCII letters only, whereas Python's `str.lower`
  covers all of Unicode. Two non-ASCII characters lower to text holding an
  ASCII letter, and neither changes selection or decoder choice:
  - KELVIN SIGN (U+212A) becomes "k", and no supported extension contains a "k";
  - LATIN CAPITAL LETTER I WITH DOT ABOVE (U+0130) becomes "i" followed by
    COMBINING DOT ABOVE (U+0307). Some extensions do contain "i" (".tif",
    ".heif", ...), but the combining mark stays in the lowered extension and
    no supported extension contains it.

=== FILE: batch.dfy ===
/**
 `process_directory`: select the supported files of the input directory, then
 convert them one by one, skipping those whose output already exists unless
 overwriting, and count every file as processed, skipped or failed.

 The directory listing, the set of output names already present and the
 per-file library behaviour are parameters.
 */
module Batch {
  import opened Text
  import opened Paths
  import opened Formats
  import opened Convert
  import opened Ledger

  /** The run-wide choices: where inputs are read from, codec availability, and the two command-line flags. */
  datatype Config = Config(inputDir: string, caps: Capabilities, overwrite: bool, cropMode: bool)

  /** The files of `listing` whose lower-cased extension is supported, in listing order. */
  function Select(caps: Capabilities, listing: seq<string>): (r: seq<string>)
    ensures |r| <= |listing|
    ensures forall f :: f in r <==> f in listing && IsSupported(caps, f)
  {
    if |listing| == 0 then []
    else
      var rest := Select(caps, listing[..|listing| - 1]);
      var f := listing[|listing| - 1];
      if IsSupported(caps, f) then rest + [f] else rest
  }

  /** Selection works piece by piece, so it keeps the listing order. */
  lemma {:induction false} SelectConcat(caps: Capabilities, a: seq<string>, b: seq<string>)
    ensures Select(caps, a + b) == Select(caps, a) + Select(caps, b)
    decreases |b|
  {
    if |b| > 0 {
      var b' := b[..|b| - 1];
      assert (a + b)[..|a + b| - 1] == a + b';
      SelectConcat(caps, a, b');
    } else {
      assert a + b == a;
    }
  }

  /** True when the file is skipped before any decoding: its output exists and overwriting is off. */
  predicate SkipsFile(cfg: Config, existing: set<string>, name: string) {
    OutputName(name) in existing && !cfg.overwrite
  }

  /** What happens to the file `name`: skipped before any decoding, or the outcome of `process_image`. */
  function Judge(cfg: Config, existing: set<string>, name: string, o: FileOracle): (v: Verdict)
    ensures v == Skipped <==> SkipsFile(cfg, existing, name)
    ensures v == Processed <==>
      !SkipsFile(cfg, existing, name) && ProcessImage(cfg.caps, Join(cfg.inputDir, name), cfg.cropMode, o).Written?
  {
    if SkipsFile(cfg, existing, name) then Skipped
    else if ProcessImage(cfg.caps, Join(cfg.inputDir, name), cfg.cropMode, o).Written? then Processed
    else Errored
  }

  /** One iteration of the loop for the file `name` at 1-based `position`, with library behaviour `o`. */
  function Step(cfg: Config, st: RunState, position: nat, total: nat, name: string, o: FileOracle): RunState {
    Record(st, Event(position, total, name, Judge(cfg, st.existing, name, o)), OutputName(name))
  }

  /**
   Each file moves exactly one counter by one: `skipped` exactly when its
   output exists and overwriting is off, `processed` exactly when it is not
   skipped and `process_image` succeeds, `failed` otherwise.
   */
  lemma StepAccounts(cfg: Config, st: RunState, position: nat, total: nat, name: string, o: FileOracle)
    ensures var r := Step(cfg, st, position, total, name, o);
      var skip := SkipsFile(cfg, st.existing, name);
      var ok := ProcessImage(cfg.caps, Join(cfg.inputDir, name), cfg.cropMode, o).Written?;
      && Total(r.counters) == Total(st.counters) + 1
      && r.counters.skipped == st.counters.skipped + (if skip then 1 else 0)
      && r.counters.processed == st.counters.processed + (if !skip && ok then 1 else 0)
      && r.counters.failed == st.counters.failed + (if !skip && !ok then 1 else 0)
      && r.existing == (if !skip && ok then st.existing + {OutputName(name)} else st.existing)
      && r.log == st.log + [Event(position, total, name, if skip then Skipped else if ok then Processed else Errored)]
  {
  }

  /** The verdict function of a run: the skip check, then `process_image` with the file's library behaviour. */
  function JudgeFor(cfg: Config, lib: string -> FileOracle): (set<string>, string) -> Verdict {
    (existing, name) => Judge(cfg, existing, name, lib(name))
  }

  /** The state after the first `k` selected files, starting from no counts and the given output names. */
  function Run(cfg: Config, existing0: set<string>, files: seq<string>, lib: string -> FileOracle, k: nat): RunState
    requires k <= |files|
  {
    Fold(existing0, files, JudgeFor(cfg, lib), OutputName, k)
  }

  /** The `k`-th iteration of the loop is `Step` on the state the earlier ones left. */
  lemma RunStep(cfg: Config, existing0: set<string>, files: seq<string>, lib: string -> FileOracle, k: nat)
    requires 0 < k <= |files|
    ensures Run(cfg, existing0, files, lib, k)
      == Step(cfg, Run(cfg, existing0, files, lib, k - 1), k, |files|, files[k - 1], lib(files[k - 1]))
  {
  }

  /** With overwriting on, nothing is ever skipped. */
  lemma OverwriteNeverSkips(cfg: Config, existing0: set<string>, files: seq<string>, lib: string -> FileOracle, k: nat)
    requires k <= |files|
    requires cfg.overwrite
    ensures Run(cfg, existing0, files, lib, k).counters.skipped == 0
  {
    var judge := JudgeFor(cfg, lib);
    assert forall ex, n :: judge(ex, n) != Skipped by {
      forall ex, n ensures judge(ex, n) != Skipped {
        assert judge(ex, n) == Judge(cfg, ex, n, lib(n));
      }
    }
    FoldNeverSkips(existing0, files, judge, OutputName, k);
  }

  /** The verdict `process_image` alone gives a file: "Processed" when it succeeds, "Error" otherwise. */
  function Outcome(cfg: Config, lib: string -> FileOracle): string -> Verdict {
    name => if ProcessImage(cfg.caps, Join(cfg.inputDir, name), cfg.cropMode, lib(name)).Written? then Processed else Errored
  }

  /** With overwriting on, the skip check never fires, so each verdict is the one `process_image` gives. */
  lemma OverwriteJudgesAlone(cfg: Config, lib: string -> FileOracle)
    requires cfg.overwrite
    ensures forall ex, n :: JudgeFor(cfg, lib)(ex, n) == Outcome(cfg, lib)(n)
  {
    forall ex, n ensures JudgeFor(cfg, lib)(ex, n) == Outcome(cfg, lib)(n) {
      assert JudgeFor(cfg, lib)(ex, n) == Judge(cfg, ex, n, lib(n));
    }
  }

  /**
   With overwriting on, the verdict of every file is the outcome of
   `process_image` on that file alone, whatever the other files did.
   */
  lemma OverwriteVerdicts(cfg: Config, existing0: set<string>, files: seq<string>,
                          lib: string -> FileOracle, k: nat)
    requires k <= |files|
    requires cfg.overwrite
    ensures var log := Run(cfg, existing0, files, lib, k).log;
      && |log| == k
      && forall j :: 0 <= j < k ==>
           log[j].verdict == (if ProcessImage(cfg.caps, Join(cfg.inputDir, files[j]), cfg.cropMode, lib(files[j])).Written?
                              then Processed else Errored)
  {
    OverwriteJudgesAlone(cfg, lib);
    FoldIndependentLog(existing0, files, JudgeFor(cfg, lib), OutputName, Outcome(cfg, lib), k);
  }

  /**
   With overwriting on, `processed` is the number of files `process_image`
   succeeds on, `failed` the number it fails on, and nothing is skipped.
   */
  lemma OverwriteCounts(cfg: Config, existing0: set<string>, files: seq<string>,
                        lib: string -> FileOracle, k: nat)
    requires k <= |files|
    requires cfg.overwrite
    ensures var c := Run(cfg, existing0, files, lib, k).counters;
      && c.processed == Tally(files, Outcome(cfg, lib), Processed, k)
      && c.failed == Tally(files, Outcome(cfg, lib), Errored, k)
      && c.processed + c.failed == k
  {
    OverwriteJudgesAlone(cfg, lib);
    FoldIndependentCount(existing0, files, JudgeFor(cfg, lib), OutputName, Outcome(cfg, lib), k, Processed);
    FoldIndependentCount(existing0, files, JudgeFor(cfg, lib), OutputName, Outcome(cfg, lib), k, Errored);
    FoldNeverSkips(existing0, files, JudgeFor(cfg, lib), OutputName, k);
    FoldTotal(existing0, files, JudgeFor(cfg, lib), OutputName, k);
  }

  /**
   Over a whole run, each file is skipped exactly when overwriting is off and
   its output name was present at the start or was written for a file
   processed before it; otherwise its verdict is the outcome of
   `process_image` on it.
   */
  lemma RunVerdicts(cfg: Config, existing0: set<string>, files: seq<string>, lib: string -> FileOracle, k: nat)
    requires k <= |files|
    ensures var log := Run(cfg, existing0, files, lib, k).log;
      && |log| == k
      && forall j :: 0 <= j < k ==>
           log[j].verdict ==
             (if !cfg.overwrite && OutputName(files[j]) in existing0 + Outputs(log, OutputName, j) then Skipped
              else if ProcessImage(cfg.caps, Join(cfg.inputDir, files[j]), cfg.cropMode, lib(files[j])).Written? then Processed
              else Errored)
  {
    var judge := JudgeFor(cfg, lib);
    var log := Run(cfg, existing0, files, lib, k).log;
    FoldJudgedOnEarlierOutputs(existing0, files, judge, OutputName, k);
    forall j | 0 <= j < k
      ensures log[j].verdict ==
        if !cfg.overwrite && OutputName(files[j]) in existing0 + Outputs(log, OutputName, j) then Skipped
        else if ProcessImage(cfg.caps, Join(cfg.inputDir, files[j]), cfg.cropMode, lib(files[j])).Written? then Processed
        else Errored
    {
      var ex := existing0 + Outputs(log, OutputName, j);
      assert judge(ex, files[j]) == Judge(cfg, ex, files[j], lib(files[j]));
    }
  }

  /**
   With overwriting off, the `j`-th file is skipped exactly when its output
   name was present at the start or equals the output name of an earlier file
   that was processed.
   */
  lemma KeepSkips(cfg: Config, existing0: set<string>, files: seq<string>, lib: string -> FileOracle, k: nat, j: nat)
    requires j < k <= |files|
    requires !cfg.overwrite
    ensures var log := Run(cfg, existing0, files, lib, k).log;
      && |log| == k
      && (log[j].verdict == Skipped <==>
            || OutputName(files[j]) in existing0
            || exists i :: 0 <= i < j && log[i].verdict == Processed && OutputName(files[i]) == OutputName(files[j]))
  {
    var log := Run(cfg, existing0, files, lib, k).log;
    RunVerdicts(cfg, existing0, files, lib, k);
    FoldEarlierOutputs(existing0, files, JudgeFor(cfg, lib), OutputName, k, j, OutputName(files[j]));
  }

  /**
   A file that is skipped is decided before any library call: the step is the
   same whatever the libraries would have done with it.
   */
  lemma SkipDoesNoWork(cfg: Config, st: RunState, position: nat, total: nat, name: string, o1: FileOracle, o2: FileOracle)
    requires SkipsFile(cfg, st.existing, name)
    ensures Step(cfg, st, position, total, name, o1) == Step(cfg, st, position, total, name, o2)
    ensures Step(cfg, st, position, total, name, o1).log[|st.log|].verdict == Skipped
  {
  }

  /**
   For a directory entry the filter accepts, the path handed to `process_image` has the
   entry's extension, so the RAW decoder is used exactly for the RAW group;
   and the output name is the entry's root with the extension ".jpg".
   */
  lemma SelectedFileHandling(cfg: Config, name: string)
    requires IsSupported(cfg.caps, name)
    requires forall k :: 0 <= k < |name| ==> name[k] != Sep
    ensures ChooseDecoder(cfg.caps, Join(cfg.inputDir, name)) == RawDecoder <==> Lower(Ext(name)) in RawFormats
    ensures SplitExt(OutputName(name)) == Split(SplitExt(name).root, JpegExt)
  {
    JoinKeepsExt(cfg.inputDir, name);
    DecoderChoice(cfg.caps, name);
    SupportedFormatsWellFormed(cfg.caps);
    var e := Lower(Ext(name));
    var i :| 0 <= i < |SupportedFormats(cfg.caps)| && SupportedFormats(cfg.caps)[i] == e;
    assert IsExtension(e);
    OutputNameSplit(name);
  }

  /**
   Two entries with the same output name (such as "a.png" and "a.gif", see
   SharedOutputName). Without overwriting, the first one written makes the
   second one count as skipped although the output directory started empty;
   with overwriting, both are written and one output name remains.
   */
  lemma OutputCollision(cfg: Config, lib: string -> FileOracle, first: string, second: string)
    requires OutputName(first) == OutputName(second)
    requires ProcessImage(cfg.caps, Join(cfg.inputDir, first), cfg.cropMode, lib(first)).Written?
    requires ProcessImage(cfg.caps, Join(cfg.inputDir, second), cfg.cropMode, lib(second)).Written?
    ensures var st := Run(cfg, {}, [first, second], lib, 2);
      && st.existing == {OutputName(first)}
      && st.counters == (if cfg.overwrite then Counters(2, 0, 0) else Counters(1, 1, 0))
      && |st.log| == 2 && st.log[1].verdict == (if cfg.overwrite then Processed else Skipped)
  {
    var judge := JudgeFor(cfg, lib);
    assert judge({}, first) == Processed by {
      assert judge({}, first) == Judge(cfg, {}, first, lib(first));
    }
    var v := judge({OutputName(first)}, second);
    assert v == (if cfg.overwrite then Processed else Skipped) by {
      assert v == Judge(cfg, {OutputName(first)}, second, lib(second));
    }
    FoldSameOutput(judge, OutputName, [first, second]);
  }

  /** How a run ends: the input directory is missing, no file is supported, or the loop finished. */
  datatype BatchOutcome = InputMissing | NoImages | Finished(state: RunState)

  /** The whole of `process_directory` as a function of its inputs. */
  function ConvertDirectory(cfg: Config, inputExists: bool, listing: seq<string>, existing0: set<string>,
                            lib: string -> FileOracle): (r: BatchOutcome)
    ensures r == InputMissing <==> !inputExists
    ensures r == NoImages <==> inputExists && forall f :: f in listing ==> !IsSupported(cfg.caps, f)
  {
    if !inputExists then InputMissing
    else
      var files := Select(cfg.caps, listing);
      if files == [] then NoImages
      else
        assert files[0] in files;
        Finished(Run(cfg, existing0, files, lib, |files|))
  }

  /** Every selected file is accounted for exactly once. */
  lemma CountersConserved(cfg: Config, listing: seq<string>, existing0: set<string>, lib: string -> FileOracle)
    ensures var r := ConvertDirectory(cfg, true, listing, existing0, lib);
      r.Finished? ==> Total(r.state.counters) == |Select(cfg.caps, listing)|
  {
    var files := Select(cfg.caps, listing);
    FoldTotal(existing0, files, JudgeFor(cfg, lib), OutputName, |files|);
  }

  /**
   `process_directory` as the source writes it: give up when the input
   directory is missing or holds no supported file, otherwise run the loop.
   */
  method ProcessDirectory(cfg: Config, inputExists: bool, listing: seq<string>, existing0: set<string>,
                          lib: string -> FileOracle)
    returns (outcome: BatchOutcome)
    ensures outcome == ConvertDirectory(cfg, inputExists, listing, existing0, lib)
  {
    if !inputExists {
      return InputMissing;
    }
    var files := SelectFiles(cfg.caps, listing);
    if files == [] {
      return NoImages;
    }
    var st := ConvertFiles(cfg, existing0, files, lib);
    return Finished(st);
  }

  /** The filtering pass over the directory listing. */
  method SelectFiles(caps: Capabilities, listing: seq<string>) returns (files: seq<string>)
    ensures files == Select(caps, listing)
  {
    files := [];
    for i := 0 to |listing|
      invariant files == Select(caps, listing[..i])
    {
      assert listing[..i + 1][..i] == listing[..i];
      if IsSupported(caps, listing[i]) {
        files := files + [listing[i]];
      }
    }
    assert listing[..|listing|] == listing;
  }

  /** The conversion pass over the selected files, with its three counters. */
  method ConvertFiles(cfg: Config, existing0: set<string>, files: seq<string>, lib: string -> FileOracle)
    returns (st: RunState)
    ensures st == Run(cfg, existing0, files, lib, |files|)
  {
    st := RunState(Counters(0, 0, 0), existing0, []);
    for i := 0 to |files|
      invariant st == Run(cfg, existing0, files, lib, i)
    {
      RunStep(cfg, existing0, files, lib, i + 1);
      st := ConvertOne(cfg, st, i + 1, |files|, files[i], lib(files[i]));
    }
  }

  /**
   The body of the conversion loop for the file `name`: skip it when its
   output exists and overwriting is off, otherwise run `process_image` and
   count the outcome.
   */
  method ConvertOne(cfg: Config, st: RunState, position: nat, total: nat, name: string, o: FileOracle)
    returns (r: RunState)
    ensures r == Step(cfg, st, position, total, name, o)
  {
    var Counters(processed, skipped, failed) := st.counters;
    var out := OutputName(name);
    if out in st.existing && !cfg.overwrite {
      return RunState(Counters(processed, skipped + 1, failed), st.existing, st.log + [Event(position, total, name, Skipped)]);
    }
    var result := ProcessImage(cfg.caps, Join(cfg.inputDir, name), cfg.cropMode, o);
    if result.Written? {
      r := RunState(Counters(processed + 1, skipped, failed), st.existing + {out}, st.log + [Event(position, total, name, Processed)]);
    } else {
      r := RunState(Counters(processed, skipped, failed + 1), st.existing, st.log + [Event(position, total, name, Errored)]);
    }
  }
}

=== FILE: colour.dfy ===
/**
 Colour-mode normalisation of `process_image`: every decoded picture leaves
 this step in mode "RGB" and at its original size.
 */
module Colour {
  import opened Geometry
  import opened Settings
  import opened Pictures

  /** The modes the converter flattens onto the background colour. */
  predicate IsFlattened(mode: string) {
    mode == "RGBA" || mode == "LA" || mode == "P"
  }

  /**
   Flatten "RGBA", "LA" and "P" pictures onto a background canvas of the same
   size ("P" is first expanded to "RGBA"; only an "RGBA" layer lends its alpha
   band as the mask); convert every other non-RGB mode; keep RGB as it is.
   */
  function Normalize(img: Picture): (r: Picture)
    ensures ModeOf(r) == "RGB"
    ensures SizeOf(r) == SizeOf(img)
    ensures Origin(r) == Origin(img)
    ensures ModeOf(img) == "RGB" ==> r == img
    ensures IsFlattened(ModeOf(img)) ==>
      && r.Pasted?
      && r.canvas == Blank(SizeOf(img), Background)
      && r.at == Point(0, 0)
      && (r.masked <==> ModeOf(r.layer) == "RGBA")
      && (r.masked <==> ModeOf(img) != "LA")
      && r.layer == (if ModeOf(img) == "P" then Converted(img, "RGBA") else img)
    ensures !IsFlattened(ModeOf(img)) && ModeOf(img) != "RGB" ==> r == Converted(img, "RGB")
  {
    var m := ModeOf(img);
    if IsFlattened(m) then
      var canvas := Blank(SizeOf(img), Background);
      var layer := if m == "P" then Converted(img, "RGBA") else img;
      Pasted(canvas, layer, Point(0, 0), ModeOf(layer) == "RGBA")
    else if m != "RGB" then
      Converted(img, "RGB")
    else
      img
  }

  /**
   Normalising twice is normalising once: the result is already RGB. The
   converter normalises each picture once; this corollary of `Normalize`'s
   contract records that the RGB branch is its fixed point.
   */
  lemma NormalizeIdempotent(img: Picture)
    ensures Normalize(Normalize(img)) == Normalize(img)
  {
  }
}

=== FILE: convert.dfy ===
/**
 `process_image`: decode one file, normalise its colour mode, place it on the
 target size and save it as a JPEG. What the libraries do (decoding, the size
 `thumbnail` picks, whether saving succeeds) is supplied by an oracle.
 */
module Convert {
  import opened Wrappers
  import opened Geometry
  import opened Settings
  import opened Formats
  import opened Pictures
  import opened Colour
  import opened Placement

  /** A picture as a decoder hands it over: PIL mode name and size. */
  datatype Raster = Raster(mode: string, size: Size)

  /**
   What the libraries do with one file: what rawpy and PIL's opener decode
   (None when they raise), the size `thumbnail` settles on, and whether the
   JPEG could be written.
   */
  datatype FileOracle = FileOracle(raw: Option<Size>, generic: Option<Raster>, thumb: Size, saves: bool)

  /** The decoded picture, from the decoder the extension selects; rawpy always yields an RGB array. */
  function Decode(caps: Capabilities, path: string, o: FileOracle): (r: Option<Picture>)
    ensures r.Some? ==> r.value.Decoded?
    ensures r.Some? && ChooseDecoder(caps, path) == RawDecoder ==> ModeOf(r.value) == "RGB"
    ensures r.None? <==>
      (if ChooseDecoder(caps, path) == RawDecoder then o.raw.None? else o.generic.None?)
  {
    match ChooseDecoder(caps, path)
    case RawDecoder =>
      if o.raw.Some? then Some(Decoded("RGB", o.raw.value)) else None
    case GenericDecoder =>
      if o.generic.Some? then Some(Decoded(o.generic.value.mode, o.generic.value.size)) else None
  }

  /** The oracle behaves as the libraries promise: a decoded picture is non-empty and `thumbnail` keeps its contract. */
  predicate OracleSound(caps: Capabilities, path: string, cropMode: bool, o: FileOracle) {
    match Decode(caps, path, o)
    case None => true
    case Some(p) => Positive(SizeOf(p)) && ThumbnailContract(SizeOf(p), ThumbnailBox(cropMode), o.thumb)
  }

  datatype JpegFile = JpegFile(picture: Picture, options: JpegOptions)

  /** Which library call raised; `process_image` catches both and returns False. */
  datatype Failure = DecodeFailed | SaveFailed

  datatype ImageOutcome = Written(file: JpegFile) | Failed(reason: Failure)

  /** `process_image(input_path, output_path, crop_mode)`; True is `Written`, False is `Failed`. */
  function ProcessImage(caps: Capabilities, path: string, cropMode: bool, o: FileOracle): (r: ImageOutcome)
    ensures r.Written? <==> Decode(caps, path, o).Some? && o.saves
    ensures r.Failed? && r.reason == DecodeFailed <==> Decode(caps, path, o).None?
    // every written file is an RGB picture of exactly the target size, showing the decoded file
    ensures r.Written? ==>
      && ModeOf(r.file.picture) == "RGB"
      && SizeOf(r.file.picture) == Target
      && Origin(r.file.picture) == Decode(caps, path, o)
      && r.file.options == JpegOptions(95, true, false)
  {
    match Decode(caps, path, o)
    case None => Failed(DecodeFailed)
    case Some(src) =>
      var rgb := Normalize(src);
      var placed := if cropMode then PlaceCrop(rgb, o.thumb) else PlaceFit(rgb, o.thumb);
      if o.saves then Written(JpegFile(placed, SaveOptions)) else Failed(SaveFailed)
  }

  /**
   Fit mode never enlarges the content: the pasted layer is the normalised
   source shrunk to a size no larger than the source, and it lies inside the
   black canvas.
   */
  lemma FitNeverUpscales(caps: Capabilities, path: string, o: FileOracle)
    requires OracleSound(caps, path, false, o)
    requires ProcessImage(caps, path, false, o).Written?
    ensures var pic := ProcessImage(caps, path, false, o).file.picture;
      var src := Decode(caps, path, o).value;
      && pic.Pasted? && pic.canvas == Blank(Target, Background)
      && pic.layer == Thumbnailed(Normalize(src), o.thumb)
      && FitsIn(SizeOf(pic.layer), SizeOf(src))
      && 0 <= pic.at.x && pic.at.x + SizeOf(pic.layer).width <= Target.width
      && 0 <= pic.at.y && pic.at.y + SizeOf(pic.layer).height <= Target.height
  {
  }

  /**
   Crop mode resamples to the target only when the thumbnail is shorter than
   the target on some axis, and then it enlarges; a source that fits the crop
   box and covers the target is cut without any resize.
   */
  lemma CropResizesOnlyShortThumbnails(caps: Capabilities, path: string, o: FileOracle)
    requires OracleSound(caps, path, true, o)
    requires ProcessImage(caps, path, true, o).Written?
    ensures var pic := ProcessImage(caps, path, true, o).file.picture;
      var src := SizeOf(Decode(caps, path, o).value);
      && (pic.Resized? <==> !FitsIn(Target, o.thumb))
      && (pic.Resized? ==> FitsIn(SizeOf(pic.base), Target))
      && (FitsIn(Target, src) && FitsIn(src, CropBox) ==> pic.Cropped?)
  {
    var pic := ProcessImage(caps, path, true, o).file.picture;
    var src := Decode(caps, path, o).value;
    assert pic == PlaceCrop(Normalize(src), o.thumb);
    assert FitsIn(o.thumb, SizeOf(src));
  }

  /**
   A written fit-mode picture is centred on the canvas: on each axis the
   margins on either side of the thumbnail differ by at most one pixel.
   */
  lemma FitCentred(caps: Capabilities, path: string, o: FileOracle)
    requires ProcessImage(caps, path, false, o).Written?
    ensures var pic := ProcessImage(caps, path, false, o).file.picture;
      && pic.Pasted? && SizeOf(pic.layer) == o.thumb
      && 0 <= (Target.width - o.thumb.width - pic.at.x) - pic.at.x <= 1
      && 0 <= (Target.height - o.thumb.height - pic.at.y) - pic.at.y <= 1
  {
  }

  /**
   A written crop-mode picture keeps the centre of the thumbnail: it is the
   normalised source after `thumbnail`, cut at a box that lies inside the
   thumbnail and whose margins on either side differ by at most one pixel on
   each axis, resized afterwards when that box is short of the target.
   */
  lemma CropCentred(caps: Capabilities, path: string, o: FileOracle)
    requires ProcessImage(caps, path, true, o).Written?
    ensures var pic := ProcessImage(caps, path, true, o).file.picture;
      var c := if pic.Resized? then pic.base else pic;
      && c.Cropped? && c.base == Thumbnailed(Normalize(Decode(caps, path, o).value), o.thumb)
      && 0 <= c.box.left <= c.box.right <= o.thumb.width
      && 0 <= c.box.top <= c.box.bottom <= o.thumb.height
      && 0 <= (o.thumb.width - c.box.right) - c.box.left <= 1
      && 0 <= (o.thumb.height - c.box.bottom) - c.box.top <= 1
  {
    var pic := ProcessImage(caps, path, true, o).file.picture;
    var src := Decode(caps, path, o).value;
    assert pic == PlaceCrop(Normalize(src), o.thumb);
    var r := CropRect(o.thumb, Target);
    var h := CropSpan(o.thumb.width, Target.width);
    var v := CropSpan(o.thumb.height, Target.height);
    assert r == Rect(h.lo, v.lo, h.hi, v.hi);
  }

  /** A 1200x1200 picture shrunk to 480x480 in fit mode sits 160 rows down the 480x800 canvas. */
  lemma FitExample()
    ensures var o := FileOracle(None, Some(Raster("RGB", Size(1200, 1200))), Size(480, 480), true);
      && OracleSound(Capabilities(false, false), "in/a.png", false, o)
      && ProcessImage(Capabilities(false, false), "in/a.png", false, o).file.picture.at == Point(0, 160)
  {
  }

  /**
   A 480x1600 picture in crop mode already fits the 960x1600 box, so
   `thumbnail` leaves it alone; the crop keeps rows 400 to 1200 and no resize
   follows.
   */
  lemma CropExample(thumb: Size)
    requires OracleSound(Capabilities(false, false), "in/a.png", true,
      FileOracle(None, Some(Raster("RGB", Size(480, 1600))), thumb, true))
    ensures var o := FileOracle(None, Some(Raster("RGB", Size(480, 1600))), thumb, true);
      ProcessImage(Capabilities(false, false), "in/a.png", true, o).file.picture
        == Cropped(Thumbnailed(Decoded("RGB", Size(480, 1600)), Size(480, 1600)), Rect(0, 400, 480, 1200))
  {
  }

  /**
   A 10000x1000 picture covers the target, yet crop mode still enlarges it:
   `thumbnail` brings it to 960x96 inside the 960x1600 box, the crop keeps
   480x96, and that is resized to 480x800.
   */
  lemma CropWideSourceIsResized()
    ensures var o := FileOracle(None, Some(Raster("RGB", Size(10000, 1000))), Size(960, 96), true);
      && OracleSound(Capabilities(false, false), "in/a.png", true, o)
      && ProcessImage(Capabilities(false, false), "in/a.png", true, o).file.picture
           == Resized(Cropped(Thumbnailed(Decoded("RGB", Size(10000, 1000)), Size(960, 96)), Rect(240, 0, 720, 96)), Target)
  {
  }
}

=== FILE: formats.dfy ===
/**
 The format registry: which file extensions the converter accepts, given which
 optional codec families (pillow-heif, rawpy) were importable, and which
 decoder a file is sent to.
 */
module Formats {
  import opened Text
  import opened Paths

  /** The outcome of the import-time probing of the optional codec libraries. */
  datatype Capabilities = Capabilities(heif: bool, raw: bool)

  const BaseFormats: seq<string> := [".jpg", ".jpeg", ".png", ".bmp", ".tiff", ".tif", ".webp", ".gif"]
  const HeifFormats: seq<string> := [".heif", ".heic", ".hif"]
  /** The RAW group; the converter spells this tuple out twice, once for the registry and once for the decoder choice. */
  const RawFormats: seq<string> := [".cr2", ".cr3", ".nef", ".arw", ".dng", ".raf", ".orf", ".rw2"]

  /** Every entry is a lower-case extension. */
  predicate WellFormedList(s: seq<string>) {
    forall i :: 0 <= i < |s| ==> IsExtension(s[i]) && IsLower(s[i])
  }

  /**
   `get_supported_formats()`: the eight base raster extensions, then the HEIF
   group when HEIF decoding is available, then the RAW group when RAW decoding
   is available.
   */
  function SupportedFormats(caps: Capabilities): (r: seq<string>)
    ensures |r| == |BaseFormats| + (if caps.heif then |HeifFormats| else 0) + (if caps.raw then |RawFormats| else 0)
    ensures r[..|BaseFormats|] == BaseFormats
    ensures caps.heif ==> r[|BaseFormats|..|BaseFormats| + |HeifFormats|] == HeifFormats
    ensures caps.raw ==> r[|r| - |RawFormats|..] == RawFormats
    ensures forall e :: e in r <==>
      e in BaseFormats || (caps.heif && e in HeifFormats) || (caps.raw && e in RawFormats)
  {
    BaseFormats
      + (if caps.heif then HeifFormats else [])
      + (if caps.raw then RawFormats else [])
  }

  /** Every list the registry can return is made of lower-case extensions. */
  lemma SupportedFormatsWellFormed(caps: Capabilities)
    ensures WellFormedList(SupportedFormats(caps))
  {
    GroupWellFormed(BaseFormats);
    GroupWellFormed(HeifFormats);
    GroupWellFormed(RawFormats);
    var r := SupportedFormats(caps);
    forall i | 0 <= i < |r| ensures IsExtension(r[i]) && IsLower(r[i]) {
      assert r[i] in BaseFormats || r[i] in HeifFormats || r[i] in RawFormats;
    }
  }

  /** Each of the three groups is made of lower-case extensions. */
  lemma GroupWellFormed(group: seq<string>)
    requires group == BaseFormats || group == HeifFormats || group == RawFormats
    ensures WellFormedList(group)
  {
    forall i | 0 <= i < |group| ensures IsExtension(group[i]) && IsLower(group[i]) {
    }
  }

  /** No RAW extension is also a base or HEIF extension: their first letters after the dot differ. */
  lemma RawGroupDisjoint(e: string)
    requires e in RawFormats
    ensures e !in BaseFormats && e !in HeifFormats
  {
    assert RawInitial(e[1]) by {
      assert e == ".cr2" || e == ".cr3" || e == ".nef" || e == ".arw"
          || e == ".dng" || e == ".raf" || e == ".orf" || e == ".rw2";
    }
  }

  /** The letters that follow the dot in the RAW extensions. */
  predicate RawInitial(c: char) {
    c == 'c' || c == 'n' || c == 'a' || c == 'd' || c == 'r' || c == 'o'
  }

  /** A directory entry is accepted when its lower-cased extension is in the supported list. */
  predicate IsSupported(caps: Capabilities, name: string) {
    Lower(Ext(name)) in SupportedFormats(caps)
  }

  /** Upper-case extensions are accepted: "IMG.JPG" passes the filter with no optional codec. */
  lemma UpperCaseAccepted()
    ensures IsSupported(Capabilities(false, false), "IMG.JPG")
  {
    assert Ext("IMG.JPG") == ".JPG" by {
      assert HasNamedBase("IMG") by {
        LastIndexOfUnique("IMG", Sep, -1);
        assert "IMG"[0] != Dot;
      }
      SplitExtRoundTrip("IMG", ".JPG");
      assert "IMG" + ".JPG" == "IMG.JPG";
    }
    assert Lower(".JPG") == ".jpg" by {
      assert Lower(".JPG")[1] == 'j' && Lower(".JPG")[2] == 'p' && Lower(".JPG")[3] == 'g';
    }
    assert ".jpg" == BaseFormats[0];
  }

  /** The two ways `process_image` obtains a picture from a file. */
  datatype Decoder = RawDecoder | GenericDecoder

  /** rawpy is used when it is available and the lower-cased extension is a RAW one; PIL's opener otherwise. */
  function ChooseDecoder(caps: Capabilities, path: string): Decoder {
    if caps.raw && Lower(Ext(path)) in RawFormats then RawDecoder else GenericDecoder
  }

  /**
   The decoder choice and the registry agree: the RAW decoder is chosen only
   for supported files, and among supported files exactly for the RAW group.
   The choice ignores the letter case of the extension.
   */
  lemma DecoderChoice(caps: Capabilities, path: string)
    ensures ChooseDecoder(caps, path) == RawDecoder ==> IsSupported(caps, path)
    ensures IsSupported(caps, path) ==>
      (ChooseDecoder(caps, path) == RawDecoder <==> Lower(Ext(path)) in RawFormats)
    ensures IsSupported(caps, path) && Lower(Ext(path)) in BaseFormats + HeifFormats ==>
      ChooseDecoder(caps, path) == GenericDecoder
    ensures forall other :: Lower(Ext(other)) == Lower(Ext(path)) ==>
      ChooseDecoder(caps, other) == ChooseDecoder(caps, path)
  {
    var e := Lower(Ext(path));
    if e in RawFormats {
      RawGroupDisjoint(e);
    }
  }
}

=== FILE: geometry.dfy ===
/**
 Integer placement geometry of `process_image`: the centred crop rectangle of
 crop mode, the centred paste offset of fit mode, and the size contract of
 PIL's `Image.thumbnail`.

 Python's `//` floors; Dafny's `/` is Euclidean. With the positive divisor 2
 used here the two agree, negative dividends included.
 */
module Geometry {

  datatype Size = Size(width: nat, height: nat)
  datatype Point = Point(x: int, y: int)
  /** A PIL box `(left, top, right, bottom)`. */
  datatype Rect = Rect(left: int, top: int, right: int, bottom: int)

  predicate Positive(s: Size) {
    s.width > 0 && s.height > 0
  }

  /** `a` fits inside `b` in both dimensions. */
  predicate FitsIn(a: Size, b: Size) {
    a.width <= b.width && a.height <= b.height
  }

  function Min(a: int, b: int): int {
    if a <= b then a else b
  }

  function Max(a: int, b: int): int {
    if a <= b then b else a
  }

  /** The size of the picture `crop(r)` returns; a box with a negative extent yields an empty axis. */
  function RectSize(r: Rect): Size {
    Size(Max(0, r.right - r.left), Max(0, r.bottom - r.top))
  }

  /** The centred interval of one axis of length `len` that crop mode keeps for a target length `target`. */
  datatype Span = Span(lo: int, hi: int)

  function CropSpan(len: nat, target: nat): (s: Span)
    ensures 0 <= s.lo <= s.hi <= len
    ensures s.hi - s.lo == Min(len, target)
    // centred: the part cut off after the span is the part cut off before it, or one more
    ensures 0 <= (len - s.hi) - s.lo <= 1
  {
    var lo := Max(0, (len - target) / 2);
    Span(lo, Min(len, lo + target))
  }

  /** The crop box `(left, top, right, bottom)` for a picture of size `img` and a target `target`. */
  function CropRect(img: Size, target: Size): (r: Rect)
    ensures 0 <= r.left <= r.right <= img.width
    ensures 0 <= r.top <= r.bottom <= img.height
    ensures r.right - r.left <= target.width && r.bottom - r.top <= target.height
    // an axis at least as long as the target is cut to exactly the target, starting at half the excess
    ensures img.width >= target.width ==>
      r.right - r.left == target.width && r.left == (img.width - target.width) / 2
    ensures img.height >= target.height ==>
      r.bottom - r.top == target.height && r.top == (img.height - target.height) / 2
    // a shorter axis is kept whole
    ensures img.width <= target.width ==> r.left == 0 && r.right == img.width
    ensures img.height <= target.height ==> r.top == 0 && r.bottom == img.height
    ensures RectSize(r) == target <==> FitsIn(target, img)
  {
    var h := CropSpan(img.width, target.width);
    var v := CropSpan(img.height, target.height);
    Rect(h.lo, v.lo, h.hi, v.hi)
  }

  /** The paste offset that centres a picture of size `inner` on a canvas of size `outer`. */
  function FitOffset(outer: Size, inner: Size): (p: Point)
    ensures FitsIn(inner, outer) ==>
      && 0 <= p.x && p.x + inner.width <= outer.width
      && 0 <= p.y && p.y + inner.height <= outer.height
    // centred: the margin after the picture is the margin before it, or one more
    ensures 0 <= (outer.width - inner.width - p.x) - p.x <= 1
    ensures 0 <= (outer.height - inner.height - p.y) - p.y <= 1
  {
    Point((outer.width - inner.width) / 2, (outer.height - inner.height) / 2)
  }

  /**
   What `Image.thumbnail(box)` guarantees about the new size `t` of a picture
   of size `src`: positive, inside the box, never larger than the source, and
   unchanged when the source already fits the box. The exact rounding of the
   aspect ratio is not part of it.
   */
  predicate ThumbnailContract(src: Size, box: Size, t: Size) {
    && Positive(t)
    && FitsIn(t, box)
    && FitsIn(t, src)
    && (FitsIn(src, box) ==> t == src)
  }
}

=== FILE: ledger.dfy ===
/**
 The bookkeeping of the conversion loop of `process_directory`, independent
 of how each file's verdict is reached: the three counters, the per-file log
 and the set of output names present in the output directory.
 */
module Ledger {

  datatype Counters = Counters(processed: nat, skipped: nat, failed: nat)

  function Total(c: Counters): nat {
    c.processed + c.skipped + c.failed
  }

  /** What happened to one file, as the per-file log line reports it. */
  datatype Verdict = Skipped | Processed | Errored

  /** One log line: `[position/total] <verdict>: file`. */
  datatype Event = Event(position: nat, total: nat, file: string, verdict: Verdict)

  /** The loop state: counters, the output names present in the output directory, and the log so far. */
  datatype RunState = RunState(counters: Counters, existing: set<string>, log: seq<Event>)

  function Bump(v: Verdict, w: Verdict): nat {
    if v == w then 1 else 0
  }

  /**
   Book one log line: the counter of its verdict moves by one, and the output
   name `output` exists from now on when the file was processed.
   */
  function Record(st: RunState, e: Event, output: string): (r: RunState)
    ensures r.log == st.log + [e]
    ensures r.counters == Counters(st.counters.processed + Bump(e.verdict, Processed),
                                   st.counters.skipped + Bump(e.verdict, Skipped),
                                   st.counters.failed + Bump(e.verdict, Errored))
    ensures Total(r.counters) == Total(st.counters) + 1
    ensures r.existing == if e.verdict == Processed then st.existing + {output} else st.existing
  {
    var c := st.counters;
    match e.verdict
    case Skipped => RunState(c.(skipped := c.skipped + 1), st.existing, st.log + [e])
    case Processed => RunState(c.(processed := c.processed + 1), st.existing + {output}, st.log + [e])
    case Errored => RunState(c.(failed := c.failed + 1), st.existing, st.log + [e])
  }

  /**
   The loop over `files` up to the `k`-th, from zero counters and the output
   names `existing0`. `judge` gives a file's verdict from the output names
   present when its turn comes; `rename` gives its output name.
   */
  function Fold(existing0: set<string>, files: seq<string>, judge: (set<string>, string) -> Verdict,
                rename: string -> string, k: nat): RunState
    requires k <= |files|
  {
    if k == 0 then RunState(Counters(0, 0, 0), existing0, [])
    else
      var prev := Fold(existing0, files, judge, rename, k - 1);
      var name := files[k - 1];
      Record(prev, Event(k, |files|, name, judge(prev.existing, name)), rename(name))
  }

  /** How many log lines carry the verdict `v`. */
  function Count(log: seq<Event>, v: Verdict): nat {
    if |log| == 0 then 0
    else Count(log[..|log| - 1], v) + Bump(log[|log| - 1].verdict, v)
  }

  lemma CountSnoc(log: seq<Event>, e: Event, v: Verdict)
    ensures Count(log + [e], v) == Count(log, v) + Bump(e.verdict, v)
  {
    assert (log + [e])[..|log|] == log;
  }

  /** After `k` files there are `k` log lines, naming the files in order, numbered from 1 of the total. */
  lemma {:induction false} FoldLog(existing0: set<string>, files: seq<string>, judge: (set<string>, string) -> Verdict,
                                   rename: string -> string, k: nat)
    requires k <= |files|
    ensures var log := Fold(existing0, files, judge, rename, k).log;
      && |log| == k
      && forall j :: 0 <= j < k ==>
           log[j].file == files[j] && log[j].position == j + 1 && log[j].total == |files|
  {
    if k > 0 {
      FoldLog(existing0, files, judge, rename, k - 1);
      var prev := Fold(existing0, files, judge, rename, k - 1).log;
      var log := Fold(existing0, files, judge, rename, k).log;
      forall j | 0 <= j < k
        ensures log[j].file == files[j] && log[j].position == j + 1 && log[j].total == |files|
      {
        if j < k - 1 {
          assert log[j] == prev[j];
        }
      }
    }
  }

  /** After `k` files the three counters add up to `k`. */
  lemma {:induction false} FoldTotal(existing0: set<string>, files: seq<string>, judge: (set<string>, string) -> Verdict,
                                     rename: string -> string, k: nat)
    requires k <= |files|
    ensures Total(Fold(existing0, files, judge, rename, k).counters) == k
  {
    if k > 0 {
      FoldTotal(existing0, files, judge, rename, k - 1);
    }
  }

  /** The counter that the verdict `v` moves. */
  function CounterOf(c: Counters, v: Verdict): nat {
    match v
    case Processed => c.processed
    case Skipped => c.skipped
    case Errored => c.failed
  }

  /** After `k` files the counter of `v` is the number of log lines with verdict `v`. */
  lemma {:induction false} FoldCount(existing0: set<string>, files: seq<string>, judge: (set<string>, string) -> Verdict,
                                     rename: string -> string, k: nat, v: Verdict)
    requires k <= |files|
    ensures var st := Fold(existing0, files, judge, rename, k);
      CounterOf(st.counters, v) == Count(st.log, v)
  {
    if k > 0 {
      FoldCount(existing0, files, judge, rename, k - 1, v);
      var prev := Fold(existing0, files, judge, rename, k - 1);
      var e := Event(k, |files|, files[k - 1], judge(prev.existing, files[k - 1]));
      var st := Record(prev, e, rename(files[k - 1]));
      assert Fold(existing0, files, judge, rename, k) == st;
      assert CounterOf(st.counters, v) == CounterOf(prev.counters, v) + Bump(e.verdict, v);
      CountSnoc(prev.log, e, v);
    }
  }

  /** After `k` files each counter is the number of log lines with its verdict. */
  lemma {:induction false} FoldAccounts(existing0: set<string>, files: seq<string>, judge: (set<string>, string) -> Verdict,
                                        rename: string -> string, k: nat)
    requires k <= |files|
    ensures var st := Fold(existing0, files, judge, rename, k);
      st.counters == Counters(Count(st.log, Processed), Count(st.log, Skipped), Count(st.log, Errored))
  {
    FoldCount(existing0, files, judge, rename, k, Processed);
    FoldCount(existing0, files, judge, rename, k, Skipped);
    FoldCount(existing0, files, judge, rename, k, Errored);
  }

  /** A verdict function that never skips leaves the skipped counter at zero. */
  lemma {:induction false} FoldNeverSkips(existing0: set<string>, files: seq<string>, judge: (set<string>, string) -> Verdict,
                                          rename: string -> string, k: nat)
    requires k <= |files|
    requires forall ex, n :: judge(ex, n) != Skipped
    ensures Fold(existing0, files, judge, rename, k).counters.skipped == 0
  {
    if k > 0 {
      FoldNeverSkips(existing0, files, judge, rename, k - 1);
    }
  }

  /**
   Output names only accumulate: those present at the start stay present, and
   each processed file's output name is present afterwards.
   */
  lemma {:induction false} FoldOutputsExist(existing0: set<string>, files: seq<string>, judge: (set<string>, string) -> Verdict,
                                            rename: string -> string, k: nat)
    requires k <= |files|
    ensures var st := Fold(existing0, files, judge, rename, k);
      && existing0 <= st.existing
      && forall j :: 0 <= j < |st.log| && st.log[j].verdict == Processed ==> rename(st.log[j].file) in st.existing
  {
    if k > 0 {
      FoldOutputsExist(existing0, files, judge, rename, k - 1);
      var prev := Fold(existing0, files, judge, rename, k - 1);
      var st := Fold(existing0, files, judge, rename, k);
      forall j | 0 <= j < |st.log| && st.log[j].verdict == Processed
        ensures rename(st.log[j].file) in st.existing
      {
        if j < |prev.log| {
          assert st.log[j] == prev.log[j];
        }
      }
    }
  }

  /** How many of the first `k` files `verdict` sends to `v`. */
  function Tally(files: seq<string>, verdict: string -> Verdict, v: Verdict, k: nat): (n: nat)
    requires k <= |files|
    ensures n <= k
  {
    if k == 0 then 0 else Tally(files, verdict, v, k - 1) + Bump(verdict(files[k - 1]), v)
  }

  /**
   When a file's verdict depends on the file alone and not on the output names
   present, the log line of each file carries that verdict.
   */
  lemma {:induction false} FoldIndependentLog(existing0: set<string>, files: seq<string>, judge: (set<string>, string) -> Verdict,
                                              rename: string -> string, verdict: string -> Verdict, k: nat)
    requires k <= |files|
    requires forall ex, n :: judge(ex, n) == verdict(n)
    ensures var log := Fold(existing0, files, judge, rename, k).log;
      && |log| == k
      && forall j :: 0 <= j < k ==> log[j].verdict == verdict(files[j])
  {
    if k > 0 {
      FoldIndependentLog(existing0, files, judge, rename, verdict, k - 1);
      var prev := Fold(existing0, files, judge, rename, k - 1).log;
      var log := Fold(existing0, files, judge, rename, k).log;
      forall j | 0 <= j < k ensures log[j].verdict == verdict(files[j]) {
        if j < k - 1 {
          assert log[j] == prev[j];
        }
      }
    }
  }

  /**
   When a file's verdict depends on the file alone, the counter of each
   verdict is the number of files sent to it.
   */
  lemma {:induction false} FoldIndependentCount(existing0: set<string>, files: seq<string>, judge: (set<string>, string) -> Verdict,
                                                rename: string -> string, verdict: string -> Verdict, k: nat, v: Verdict)
    requires k <= |files|
    requires forall ex, n :: judge(ex, n) == verdict(n)
    ensures CounterOf(Fold(existing0, files, judge, rename, k).counters, v) == Tally(files, verdict, v, k)
  {
    if k > 0 {
      FoldIndependentCount(existing0, files, judge, rename, verdict, k - 1, v);
      var prev := Fold(existing0, files, judge, rename, k - 1);
      var e := Event(k, |files|, files[k - 1], judge(prev.existing, files[k - 1]));
      var st := Record(prev, e, rename(files[k - 1]));
      assert Fold(existing0, files, judge, rename, k) == st;
      assert CounterOf(st.counters, v) == CounterOf(prev.counters, v) + Bump(e.verdict, v);
    }
  }

  /**
   Two files with the same output name, from an empty output directory: the
   first is processed and its output exists when the second's turn comes, so
   the second is judged against that output.
   */
  lemma FoldSameOutput(judge: (set<string>, string) -> Verdict, rename: string -> string, files: seq<string>)
    requires |files| == 2 && rename(files[0]) == rename(files[1])
    requires judge({}, files[0]) == Processed
    ensures var st := Fold({}, files, judge, rename, 2);
      var v := judge({rename(files[0])}, files[1]);
      && st.existing == {rename(files[0])}
      && st.counters == Counters(1 + Bump(v, Processed), Bump(v, Skipped), Bump(v, Errored))
      && |st.log| == 2 && st.log[0].verdict == Processed && st.log[1].verdict == v
  {
    var s0 := Fold({}, files, judge, rename, 0);
    var s1 := Fold({}, files, judge, rename, 1);
    var e1 := Event(1, 2, files[0], Processed);
    assert s1 == Record(s0, e1, rename(files[0]));
    assert s1.existing == {rename(files[0])} && s1.log == [e1] && s1.counters == Counters(1, 0, 0);
    var e2 := Event(2, 2, files[1], judge(s1.existing, files[1]));
    assert Fold({}, files, judge, rename, 2) == Record(s1, e2, rename(files[1]));
  }

  /** The output names that the processed lines among the first `j` of `log` add. */
  function Outputs(log: seq<Event>, rename: string -> string, j: nat): set<string>
    requires j <= |log|
  {
    if j == 0 then {}
    else Outputs(log, rename, j - 1) + (if log[j - 1].verdict == Processed then {rename(log[j - 1].file)} else {})
  }

  /**
   A name is among the outputs of the first `j` lines exactly when one of
   them is a processed line that renames to it.
   */
  lemma {:induction false} OutputsMembers(log: seq<Event>, rename: string -> string, j: nat, x: string)
    requires j <= |log|
    ensures x in Outputs(log, rename, j) <==>
      exists i :: 0 <= i < j && log[i].verdict == Processed && rename(log[i].file) == x
  {
    if j > 0 {
      OutputsMembers(log, rename, j - 1, x);
    }
  }

  /** Lines appended later do not change the outputs of the first `j`. */
  lemma {:induction false} OutputsExtend(log: seq<Event>, e: Event, rename: string -> string, j: nat)
    requires j <= |log|
    ensures Outputs(log + [e], rename, j) == Outputs(log, rename, j)
  {
    if j > 0 {
      OutputsExtend(log, e, rename, j - 1);
      assert (log + [e])[j - 1] == log[j - 1];
    }
  }

  /**
   Booking one more line keeps the output names present equal to those at the
   start plus those of the processed lines.
   */
  lemma RecordOutputs(st: RunState, e: Event, rename: string -> string, existing0: set<string>)
    requires st.existing == existing0 + Outputs(st.log, rename, |st.log|)
    ensures var r := Record(st, e, rename(e.file));
      r.existing == existing0 + Outputs(r.log, rename, |r.log|)
  {
    OutputsExtend(st.log, e, rename, |st.log|);
    assert (st.log + [e])[|st.log|] == e;
  }

  /**
   The output names present after `k` files are exactly those present at the
   start and those of the processed files: nothing else appears.
   */
  lemma {:induction false} FoldExisting(existing0: set<string>, files: seq<string>, judge: (set<string>, string) -> Verdict,
                                        rename: string -> string, k: nat)
    requires k <= |files|
    ensures var st := Fold(existing0, files, judge, rename, k);
      && |st.log| == k
      && st.existing == existing0 + Outputs(st.log, rename, k)
  {
    if k > 0 {
      FoldExisting(existing0, files, judge, rename, k - 1);
      var prev := Fold(existing0, files, judge, rename, k - 1);
      var e := Event(k, |files|, files[k - 1], judge(prev.existing, files[k - 1]));
      assert Fold(existing0, files, judge, rename, k) == Record(prev, e, rename(e.file));
      RecordOutputs(prev, e, rename, existing0);
    }
  }

  /** The `k`-th file adds one line to the log of the first `k - 1`. */
  lemma FoldLogSnoc(existing0: set<string>, files: seq<string>, judge: (set<string>, string) -> Verdict,
                    rename: string -> string, k: nat)
    requires 0 < k <= |files|
    ensures var prev := Fold(existing0, files, judge, rename, k - 1);
      Fold(existing0, files, judge, rename, k).log
        == prev.log + [Event(k, |files|, files[k - 1], judge(prev.existing, files[k - 1]))]
  {
  }

  /**
   A log whose every line was judged against the output names of the lines
   before it keeps that property when a line so judged is appended.
   */
  lemma JudgedSnoc(existing0: set<string>, files: seq<string>, judge: (set<string>, string) -> Verdict,
                   rename: string -> string, log: seq<Event>, e: Event)
    requires |log| < |files|
    requires forall j :: 0 <= j < |log| ==> log[j].verdict == judge(existing0 + Outputs(log, rename, j), files[j])
    requires e.verdict == judge(existing0 + Outputs(log, rename, |log|), files[|log|])
    ensures forall j :: 0 <= j <= |log| ==>
      (log + [e])[j].verdict == judge(existing0 + Outputs(log + [e], rename, j), files[j])
  {
    forall j | 0 <= j <= |log|
      ensures (log + [e])[j].verdict == judge(existing0 + Outputs(log + [e], rename, j), files[j])
    {
      OutputsExtend(log, e, rename, j);
      if j < |log| {
        assert (log + [e])[j] == log[j];
      } else {
        assert (log + [e])[j] == e;
      }
    }
  }

  /**
   Each file is judged against the output names present at the start plus
   those of the files processed before it.
   */
  lemma {:induction false} FoldJudgedOnEarlierOutputs(existing0: set<string>, files: seq<string>,
                                                      judge: (set<string>, string) -> Verdict,
                                                      rename: string -> string, k: nat)
    requires k <= |files|
    ensures var log := Fold(existing0, files, judge, rename, k).log;
      && |log| == k
      && forall j :: 0 <= j < k ==> log[j].verdict == judge(existing0 + Outputs(log, rename, j), files[j])
  {
    if k > 0 {
      FoldJudgedOnEarlierOutputs(existing0, files, judge, rename, k - 1);
      FoldExisting(existing0, files, judge, rename, k - 1);
      FoldLogSnoc(existing0, files, judge, rename, k);
      var prev := Fold(existing0, files, judge, rename, k - 1);
      var e := Event(k, |files|, files[k - 1], judge(prev.existing, files[k - 1]));
      JudgedSnoc(existing0, files, judge, rename, prev.log, e);
    }
  }

  /**
   A name is among the outputs written before the `j`-th file exactly when an
   earlier file was processed and renames to it.
   */
  lemma FoldEarlierOutputs(existing0: set<string>, files: seq<string>, judge: (set<string>, string) -> Verdict,
                           rename: string -> string, k: nat, j: nat, x: string)
    requires j <= k <= |files|
    ensures var log := Fold(existing0, files, judge, rename, k).log;
      && |log| == k
      && (x in Outputs(log, rename, j) <==>
            exists i :: 0 <= i < j && log[i].verdict == Processed && rename(files[i]) == x)
  {
    var log := Fold(existing0, files, judge, rename, k).log;
    FoldLog(existing0, files, judge, rename, k);
    OutputsMembers(log, rename, j, x);
    if exists i :: 0 <= i < j && log[i].verdict == Processed && rename(log[i].file) == x {
      var i :| 0 <= i < j && log[i].verdict == Processed && rename(log[i].file) == x;
      assert log[i].file == files[i];
    }
    if exists i :: 0 <= i < j && log[i].verdict == Processed && rename(files[i]) == x {
      var i :| 0 <= i < j && log[i].verdict == Processed && rename(files[i]) == x;
      assert log[i].file == files[i];
    }
  }
}

=== FILE: paths.dfy ===
/**
 POSIX path handling used by the converter: `os.path.splitext`, `os.path.join`
 for a directory entry, and the output name `<stem>.jpg`.
 */
module Paths {
  import opened Text

  const Sep: char := '/'
  const Dot: char := '.'

  /** A root/extension pair, as returned by `os.path.splitext`. */
  datatype Split = Split(root: string, ext: string)

  /** Some character strictly between positions `lo` and `hi` of `p` is not a dot. */
  predicate NonDotBetween(p: string, lo: int, hi: int)
    requires -1 <= lo && hi <= |p|
  {
    exists k :: lo < k < hi && p[k] != Dot
  }

  /** A non-empty extension: a dot followed by characters that are neither dots nor separators. */
  predicate IsExtension(e: string) {
    |e| >= 1 && e[0] == Dot && forall k :: 1 <= k < |e| ==> e[k] != Dot && e[k] != Sep
  }

  /** The last path component of `p` has a character that is not a dot. */
  predicate HasNamedBase(p: string) {
    NonDotBetween(p, LastIndexOf(p, Sep), |p|)
  }

  /**
   `os.path.splitext(p)`: the extension starts at the last dot of the last
   component, unless only dots precede it in that component (so ".bashrc" and
   "..." have no extension).
   */
  function SplitExt(p: string): (r: Split)
    ensures r.root + r.ext == p
    ensures r.ext == [] || IsExtension(r.ext)
    ensures r.ext != [] ==> HasNamedBase(r.root)
  {
    var sep := LastIndexOf(p, Sep);
    var dot := LastIndexOf(p, Dot);
    if dot > sep && NonDotBetween(p, sep, dot) then
      var root := p[..dot];
      assert LastIndexOf(root, Sep) == sep by {
        LastIndexOfUnique(root, Sep, sep);
      }
      var k :| sep < k < dot && p[k] != Dot;
      assert root[k] != Dot;
      Split(root, p[dot..])
    else
      Split(p, [])
  }

  function Ext(p: string): string {
    SplitExt(p).ext
  }

  /** Splitting a root with a named last component and a proper extension gives them back. */
  lemma SplitExtRoundTrip(root: string, ext: string)
    requires HasNamedBase(root)
    requires IsExtension(ext)
    ensures SplitExt(root + ext) == Split(root, ext)
  {
    var p := root + ext;
    LastIndexOfConcat(root, ext, Sep);
    LastIndexOfUnique(ext, Sep, -1);
    LastIndexOfConcat(root, ext, Dot);
    LastIndexOfUnique(ext, Dot, 0);
    var sep := LastIndexOf(root, Sep);
    var k :| sep < k < |root| && root[k] != Dot;
    assert p[k] != Dot;
    assert p[..|root|] == root;
  }

  /** The output file name for an input name: its root followed by ".jpg". */
  const JpegExt: string := ".jpg"

  function OutputName(name: string): string {
    SplitExt(name).root + JpegExt
  }

  /** A name made of a root with a named last component and a proper extension is renamed to that root plus ".jpg". */
  lemma OutputNameOf(root: string, ext: string)
    requires HasNamedBase(root)
    requires IsExtension(ext)
    ensures OutputName(root + ext) == root + JpegExt
  {
    SplitExtRoundTrip(root, ext);
  }

  /** "a.png" and "a.gif" both have the output name "a.jpg". */
  lemma SharedOutputName()
    ensures OutputName("a.png") == "a.jpg" && OutputName("a.gif") == "a.jpg"
  {
    assert HasNamedBase("a") by {
      LastIndexOfUnique("a", Sep, -1);
      assert "a"[0] != Dot;
    }
    assert "a" + ".png" == "a.png" && "a" + ".gif" == "a.gif" && "a" + JpegExt == "a.jpg";
    OutputNameOf("a", ".png");
    OutputNameOf("a", ".gif");
  }

  /** A name that has an extension keeps its root and gets exactly the extension ".jpg". */
  lemma OutputNameSplit(name: string)
    requires Ext(name) != []
    ensures SplitExt(OutputName(name)) == Split(SplitExt(name).root, JpegExt)
  {
    SplitExtRoundTrip(SplitExt(name).root, JpegExt);
  }

  /** `os.path.join(dir, name)` for a single component `name`. */
  function Join(dir: string, name: string): string {
    if |name| > 0 && name[0] == Sep then name
    else if dir == [] || dir[|dir| - 1] == Sep then dir + name
    else dir + [Sep] + name
  }

  /**
   The shape of `Join(dir, name)`: the name always ends the path; a name that
   does not start with a separator keeps the directory in front, with a
   separator between when the directory is non-empty.
   */
  lemma JoinShape(dir: string, name: string)
    ensures var r := Join(dir, name);
      && |r| >= |name| && r[|r| - |name|..] == name
      && ((|name| == 0 || name[0] != Sep) ==> |r| >= |dir| && r[..|dir|] == dir)
      && (dir != [] && (|name| == 0 || name[0] != Sep) ==> |r| > |name| && r[|r| - |name| - 1] == Sep)
  {
  }

  /** Joining a directory to a separator-free name does not change the name's extension. */
  lemma JoinKeepsExt(dir: string, name: string)
    requires forall k :: 0 <= k < |name| ==> name[k] != Sep
    ensures Ext(Join(dir, name)) == Ext(name)
  {
    if |name| > 0 {
      assert name[0] != Sep;
    }
    if dir == [] || dir[|dir| - 1] == Sep {
      ExtAfterDirectory(dir, name);
    } else {
      ExtAfterDirectory(dir + [Sep], name);
      assert dir + [Sep] + name == (dir + [Sep]) + name;
    }
  }

  /** After a directory part ending in a separator, the extension is the one of the last component. */
  lemma ExtAfterDirectory(prefix: string, name: string)
    requires prefix == [] || prefix[|prefix| - 1] == Sep
    requires forall k :: 0 <= k < |name| ==> name[k] != Sep
    ensures Ext(prefix + name) == Ext(name)
  {
    var p := prefix + name;
    var sep := |prefix| - 1;
    assert LastIndexOf(p, Sep) == sep by {
      LastIndexOfUnique(name, Sep, -1);
      LastIndexOfConcat(prefix, name, Sep);
      LastIndexOfUnique(prefix, Sep, |prefix| - 1);
    }
    assert LastIndexOf(name, Sep) == -1 by {
      LastIndexOfUnique(name, Sep, -1);
    }
    LastIndexOfConcat(prefix, name, Dot);
    var dotN := LastIndexOf(name, Dot);
    if dotN >= 0 {
      ShiftedSplit(prefix, name, dotN);
    } else {
      assert LastIndexOf(p, Dot) <= sep by {
        if prefix != [] {
          assert prefix[|prefix| - 1] != Dot;
        }
      }
    }
  }

  /** The dot test of `SplitExt` reads the same on a name and on the name behind a directory part. */
  lemma ShiftedSplit(prefix: string, name: string, dotN: int)
    requires 0 <= dotN < |name|
    ensures NonDotBetween(prefix + name, |prefix| - 1, |prefix| + dotN) == NonDotBetween(name, -1, dotN)
    ensures (prefix + name)[|prefix| + dotN..] == name[dotN..]
  {
    var p := prefix + name;
    if NonDotBetween(name, -1, dotN) {
      var k :| -1 < k < dotN && name[k] != Dot;
      assert p[|prefix| + k] == name[k];
    }
    if NonDotBetween(p, |prefix| - 1, |prefix| + dotN) {
      var k :| |prefix| - 1 < k < |prefix| + dotN && p[k] != Dot;
      assert name[k - |prefix|] == p[k];
    }
  }
}

=== FILE: pictures.dfy ===
/**
 Pictures as the record of the PIL calls that produced them. Pixel values are
 not modelled; a picture is known by its mode, its size, and the decoded file
 whose content it shows.
 */
module Pictures {
  import opened Wrappers
  import opened Geometry
  import opened Settings

  datatype Picture =
    /** What a decoder returned for a file: a PIL mode name ("RGB", "RGBA", "LA", "P", "L", "CMYK", ...) and a size. */
    | Decoded(mode: string, size: Size)
    /** `Image.new('RGB', size, fill)`. */
    | Blank(size: Size, fill: Rgb)
    /** `base.convert(mode)`. */
    | Converted(base: Picture, mode: string)
    /** `canvas.paste(layer, at, mask=...)`, where `masked` says whether the layer's alpha band was the mask. */
    | Pasted(canvas: Picture, layer: Picture, at: Point, masked: bool)
    /** `base.thumbnail(...)` that left the picture at `size`. */
    | Thumbnailed(base: Picture, size: Size)
    /** `base.crop(box)`. */
    | Cropped(base: Picture, box: Rect)
    /** `base.resize(size)`. */
    | Resized(base: Picture, size: Size)

  function ModeOf(p: Picture): string {
    match p
    case Decoded(m, _) => m
    case Blank(_, _) => "RGB"
    case Converted(_, m) => m
    case Pasted(c, _, _, _) => ModeOf(c)
    case Thumbnailed(b, _) => ModeOf(b)
    case Cropped(b, _) => ModeOf(b)
    case Resized(b, _) => ModeOf(b)
  }

  function SizeOf(p: Picture): Size {
    match p
    case Decoded(_, s) => s
    case Blank(s, _) => s
    case Converted(b, _) => SizeOf(b)
    case Pasted(c, _, _, _) => SizeOf(c)
    case Thumbnailed(_, s) => s
    case Cropped(_, r) => RectSize(r)
    case Resized(_, s) => s
  }

  /** The decoded file whose content a picture shows: pasting shows the layer, a blank canvas shows none. */
  function Origin(p: Picture): Option<Picture> {
    match p
    case Decoded(_, _) => Some(p)
    case Blank(_, _) => None
    case Converted(b, _) => Origin(b)
    case Pasted(_, l, _, _) => Origin(l)
    case Thumbnailed(b, _) => Origin(b)
    case Cropped(b, _) => Origin(b)
    case Resized(b, _) => Origin(b)
  }
}

=== FILE: placement.dfy ===
/**
 The two placements of `process_image` on the target size: crop mode (thumbnail
 into twice the target, centred crop, resize when still short) and fit mode
 (thumbnail into the target, pasted centred on a background canvas).
 */
module Placement {
  import opened Geometry
  import opened Settings
  import opened Pictures

  /** The box handed to `thumbnail` in each mode. */
  function ThumbnailBox(cropMode: bool): (box: Size)
    ensures cropMode ==> box.width == 2 * Target.width && box.height == 2 * Target.height
    ensures !cropMode ==> box == Target
  {
    if cropMode then CropBox else Target
  }

  /** Crop mode, given the size `thumb` that `thumbnail` left the picture at. */
  function PlaceCrop(img: Picture, thumb: Size): (r: Picture)
    ensures SizeOf(r) == Target
    ensures ModeOf(r) == ModeOf(img)
    ensures Origin(r) == Origin(img)
    // a resize happens exactly when the thumbnail is shorter than the target on some axis ...
    ensures r.Resized? <==> !FitsIn(Target, thumb)
    // ... and then it only enlarges: the cropped picture fits inside the target
    ensures r.Resized? ==> FitsIn(SizeOf(r.base), Target)
    // what is kept is the thumbnail cut at the centred crop box
    ensures var c := if r.Resized? then r.base else r;
      c == Cropped(Thumbnailed(img, thumb), CropRect(thumb, Target))
  {
    var shrunk := Thumbnailed(img, thumb);
    var cropped := Cropped(shrunk, CropRect(thumb, Target));
    assert ModeOf(cropped) == ModeOf(img) && Origin(cropped) == Origin(img);
    if SizeOf(cropped) != Target then Resized(cropped, Target) else cropped
  }

  /** Fit mode, given the size `thumb` that `thumbnail` left the picture at. */
  function PlaceFit(img: Picture, thumb: Size): (r: Picture)
    ensures SizeOf(r) == Target
    ensures ModeOf(r) == "RGB"
    ensures Origin(r) == Origin(img)
    ensures r.Pasted? && r.canvas == Blank(Target, Background) && !r.masked
    ensures SizeOf(r.layer) == thumb
    // the pasted picture lies inside the canvas whenever it fits the target
    ensures FitsIn(thumb, Target) ==>
      && 0 <= r.at.x && r.at.x + thumb.width <= Target.width
      && 0 <= r.at.y && r.at.y + thumb.height <= Target.height
  {
    var shrunk := Thumbnailed(img, thumb);
    Pasted(Blank(Target, Background), shrunk, FitOffset(Target, shrunk.size), false)
  }
}

=== FILE: settings.dfy ===
/** The processing constants of the converter. */
module Settings {
  import opened Geometry

  /** A colour as three channel bytes. */
  type Byte = b: int | 0 <= b < 256
  datatype Rgb = Rgb(red: Byte, green: Byte, blue: Byte)

  /** `TARGET_SIZE`: the output size (width, height). */
  const Target: Size := Size(480, 800)
  /** `BACKGROUND_COLOR`: black. */
  const Background: Rgb := Rgb(0, 0, 0)
  /** `JPEG_QUALITY`. */
  const JpegQuality: nat := 95

  /** The thumbnail box of crop mode: twice the target in each dimension. */
  const CropBox: Size := Size(Target.width * 2, Target.height * 2)

  /** The keyword arguments of the final `save(..., 'JPEG', ...)`. */
  datatype JpegOptions = JpegOptions(quality: nat, optimize: bool, progressive: bool)
  const SaveOptions: JpegOptions := JpegOptions(JpegQuality, true, false)
}

=== FILE: text.dfy ===
/**
 Character and string helpers the converter relies on: ASCII lower-casing
 (Python's `str.lower` restricted to the characters file extensions use) and
 the last occurrence of a character (Python's `str.rfind`).
 */
module Text {

  predicate IsUpper(c: char) {
    'A' <= c <= 'Z'
  }

  /** Lower-cases one ASCII letter and leaves every other character alone. */
  function LowerChar(c: char): (r: char)
    ensures !IsUpper(r)
    ensures !IsUpper(c) ==> r == c
    ensures IsUpper(c) ==> r != c && r as int - c as int == 'a' as int - 'A' as int
  {
    if IsUpper(c) then (c as int - 'A' as int + 'a' as int) as char else c
  }

  /** `s.lower()` for ASCII text. */
  function Lower(s: string): (r: string)
    ensures |r| == |s|
    ensures forall i :: 0 <= i < |r| ==> !IsUpper(r[i])
    ensures forall i :: 0 <= i < |s| && !IsUpper(s[i]) ==> r[i] == s[i]
    // an upper-case letter becomes its lower-case partner
    ensures forall i :: 0 <= i < |s| && IsUpper(s[i]) ==> r[i] as int == s[i] as int + ('a' as int - 'A' as int)
  {
    seq(|s|, i requires 0 <= i < |s| => LowerChar(s[i]))
  }

  predicate IsLower(s: string) {
    forall i :: 0 <= i < |s| ==> !IsUpper(s[i])
  }

  /** Lower-casing is idempotent, and it fixes exactly the strings with no upper-case letter. */
  lemma LowerFixedPoints(s: string)
    ensures Lower(Lower(s)) == Lower(s)
    ensures Lower(s) == s <==> IsLower(s)
  {
    if Lower(s) == s {
      forall i | 0 <= i < |s| ensures !IsUpper(s[i]) {
        assert s[i] == Lower(s)[i];
      }
    }
  }

  /** `s.rfind(c)`: the index of the last `c` in `s`, or -1 when there is none. */
  function LastIndexOf(s: string, c: char): (r: int)
    ensures -1 <= r < |s|
    ensures r >= 0 ==> s[r] == c
    ensures forall k :: r < k < |s| ==> s[k] != c
  {
    if |s| == 0 then -1
    else if s[|s| - 1] == c then |s| - 1
    else LastIndexOf(s[..|s| - 1], c)
  }

  /** The three facts of LastIndexOf's contract pin its result down uniquely. */
  lemma LastIndexOfUnique(s: string, c: char, r: int)
    requires -1 <= r < |s|
    requires r >= 0 ==> s[r] == c
    requires forall k :: r < k < |s| ==> s[k] != c
    ensures LastIndexOf(s, c) == r
  {
  }

  /** The last `c` of a concatenation is the last one of the right part, if any, else of the left part. */
  lemma LastIndexOfConcat(s: string, t: string, c: char)
    ensures LastIndexOf(s + t, c) ==
      (if LastIndexOf(t, c) >= 0 then |s| + LastIndexOf(t, c) else LastIndexOf(s, c))
  {
    var st := s + t;
    var lt := LastIndexOf(t, c);
    if lt >= 0 {
      forall k | |s| + lt < k < |st| ensures st[k] != c {
        assert st[k] == t[k - |s|];
      }
      LastIndexOfUnique(st, c, |s| + lt);
    } else {
      var ls := LastIndexOf(s, c);
      forall k | ls < k < |st| ensures st[k] != c {
        if k >= |s| {
          assert st[k] == t[k - |s|];
        }
      }
      LastIndexOfUnique(st, c, ls);
    }
  }
}

=== FILE: wrappers.dfy ===
/** An optional value: what an oracle returns when a library call may fail. */
module Wrappers {

  datatype Option<+T> = None | Some(value: T)
}
